=== FILE: README.md ===
# Files store of the diagram editor, in Dafny

This project models the files store of a browser-based database-diagram
editor (`useFilesStore`). It keeps named diagram files in a persistent
key-value store. Each file is a record holding the editor's source text and
the chart's diagram state. The store tracks a cached list of file names
(`files`), the open file (`currentFile`), a `saving` flag and the time of the
last save. Its actions list, load, save, create, delete, rename and import
files, moving content between storage and the editor and chart stores.

Each action is a pure transition on an immutable `State`:

- Every `await` is treated as one sequential step.
- Every storage call that can fail takes a boolean saying whether it fails.
- Record values are a JSON-like `Value` with an explicit `Undefined`. This
  captures JavaScript truthiness, property access on `null` and the
  `JSON.parse(JSON.stringify(..))` round trip used when saving.

Modules:

- `Wrappers`: `Option`.
- `Json`:
  - values and truthiness;
  - `a || b`;
  - property access;
  - `Normalize`, the JSON text round trip.
- `KeyValueStore`: storage with `keys`, `getItem`, `setItem` and
  `removeItem`. It is a subset type whose key list names every stored key
  exactly once.
- `Snapshots`: the editor and chart stores as snapshots with `load`, `save`
  and `$reset`.
- `DefaultNames`: `generateDefaultFileName`, including its post-increment
  loop, and the reference definition of the least free `Untitled (n)`.
- `FilesStore`: the state and one function per action.
- `FilesStoreProperties`: properties that span several actions, the
  corrected rename, and the scenarios.

## Model

| member | source | states |
|---|---|---|
| Json.Normalize | web/src/store/files.js:74 | The text round trip yields a value free of `undefined`. Objects stay objects and keep the keys of exactly the members whose value was defined; each kept member holds its normalised original value. Arrays keep their length, and each item is its normalised original; `undefined` as an array item becomes `null`. Primitives are unchanged. Truthy values stay truthy. |
| Json.NormalizeKeepsJsonMembers | web/src/store/files.js:74 | Object members already free of `undefined` survive the round trip verbatim; members whose value is `undefined` are dropped. |
| Json.NormalizeFixesJson | web/src/store/files.js:74 | A value that is already free of `undefined` survives the round trip unchanged. |
| Json.NormalizeIdempotent | web/src/store/files.js:74 | Normalising twice equals normalising once. |
| KeyValueStore.Keys | web/src/store/files.js:30 | `keys()` lists every stored key exactly once and nothing else. |
| KeyValueStore.GetItem | web/src/store/files.js:40 | `getItem` yields the stored value, or `null` for a missing key. |
| KeyValueStore.SetItem | web/src/store/files.js:74 | `setItem` is an upsert: the key now maps to the value, every other key is unchanged, and an existing key keeps its place in the enumeration. |
| KeyValueStore.Without | web/src/store/files.js:111 | Removing a key from the key list keeps exactly the other keys and keeps them distinct. |
| KeyValueStore.RemoveItem | web/src/store/files.js:111 | `removeItem` takes exactly that key out; removing a missing key changes nothing. |
| DefaultNames.DecimalInjective | web/src/store/files.js:90-92 | Different counters print as different numerals. |
| DefaultNames.DefaultNameInjective | web/src/store/files.js:90-92 | Different counters give different `Untitled (n)` names. |
| DefaultNames.Pigeonhole | web/src/store/files.js:91 | If `files` holds `Untitled (1)` to `Untitled (n)`, it has at least n entries. This bounds the loop. |
| DefaultNames.LeastAbsent | web/src/store/files.js:89-93 | Reference definition: the least n ≥ 1 whose `Untitled (n)` is not in `files`. It is at most one more than the list length. |
| DefaultNames.GenerateLoop | web/src/store/files.js:89-93 | The loop with its post-increment tests `Untitled (1)` twice, then `Untitled (2)`, `Untitled (3)`, … It terminates on every finite list and returns `Untitled (n)` for the least absent n. |
| DefaultNames.GenerateDefaultFileName | web/src/store/files.js:88-95 | The generated name is never in `files` and is `Untitled (n)` for the least n ≥ 1 not taken. |
| DefaultNames.GenerateExamples | web/src/store/files.js:88-95 | An empty list gives `Untitled (1)`; a list holding only `Untitled (1)` gives `Untitled (2)`. |
| FilesStore.Init | web/src/store/files.js:12-17 | The store starts with `saving` off, `lastSave` 0, an empty cached list and a `currentFile` that is defined but falsy (`""`). Storage and the two modules are whatever they already hold. |
| FilesStore.RecordToSave | web/src/store/files.js:69-72 | The record saved is an object with exactly the editor snapshot's members plus `chart`. `chart` holds the chart snapshot and wins over an editor member of that name. Every other member keeps the editor's value. |
| FilesStore.LoadFileList | web/src/store/files.js:27-35 | On success the cached list names each stored key exactly once, and nothing else changes. On failure nothing changes at all. |
| FilesStore.ResolveName | web/src/store/files.js:61-62 | A non-empty explicit name wins. Otherwise a non-empty `currentFile` is used. Otherwise the generated default name is used, which is not in the cached list. The result is never empty. |
| FilesStore.SaveFile | web/src/store/files.js:58-87 | `saving` ends false on every path, and the editor and chart are untouched. A failed write changes nothing else. A successful write maps the resolved name to the normalised editor snapshot plus `chart`, leaves every other key alone, makes the name current and stamps `lastSave`. With the listing also succeeding, the list is fresh. |
| FilesStore.NewFile | web/src/store/files.js:96-107 | Both modules end at their reset state. A failed write leaves `currentFile` undefined and storage and `lastSave` unchanged. Otherwise the record of the reset modules is stored under the least free default name from the cached list, that name becomes current and `lastSave` is stamped. A failed write or a failed listing leaves the cached list as it was; a successful write and listing leave it fresh. The modules' reset defaults are kept. |
| FilesStore.LoadFile | web/src/store/files.js:36-57 | Storage, `saving` and `lastSave` never change. When the fetch fails, the record is missing or falsy, or its `source` is falsy, the editor, chart and `currentFile` are untouched. Otherwise the editor gets `{source}`, the chart gets `chart` (or `{}` when falsy) and the name becomes current. The list is refreshed whenever listing succeeds. The modules' reset defaults are kept. |
| FilesStore.DeleteFile | web/src/store/files.js:108-116 | A falsy name, or a failed removal, changes nothing. Otherwise exactly that key leaves storage, and with a successful listing the list is fresh. A failed listing leaves the cached list as it was. `currentFile` and the modules are never touched. |
| FilesStore.RenameFile | web/src/store/files.js:117-129 | `saving` ends false and the modules are untouched. When the names differ, `currentFile` ends as the new name. When they are equal, storage ends as the save left it. A successful final listing leaves the list fresh. |
| FilesStore.LoadFileFromUpload | web/src/store/files.js:130-147 | A failed parse, or a parsed `null`, changes nothing. Otherwise the editor gets the parsed `source` and the chart gets `chart` (or `{}`). A failed write then leaves storage and `currentFile` unchanged. A successful write stores the parsed value verbatim under the name and makes the name current. A failed write or a failed listing leaves the cached list as it was. The modules' reset defaults are kept. |
| FilesStoreProperties.LoadFileListIdempotent | web/src/store/files.js:27-35 | Listing twice gives the same state as listing once. |
| FilesStoreProperties.SaveThenLoadRoundTrip | web/src/store/files.js:36-87 | Take a non-empty source string and any chart. Saving and then loading the saved name restores the exact source and the chart as the text round trip leaves it (or `{}` when that is falsy), and makes the name current. |
| FilesStoreProperties.SaveThenLoadRestoresJsonChart | web/src/store/files.js:36-87 | For a chart already free of `undefined`, save then load restores the chart exactly (or `{}` when it is falsy). |
| FilesStoreProperties.FirstSaveFromInit | web/src/store/files.js:12-17 | From the initial state over any storage, a save with no name writes the current record under `Untitled (1)`, overwriting any file already stored there, and makes it current. This happens because the initial `currentFile` is falsy and the cached list is empty; it is the startup case of the stale-list race. |
| FilesStoreProperties.UploadThenLoadRoundTrip | web/src/store/files.js:36-57 | After importing a record with a truthy `source`, loading it by name leaves the editor and chart as the import set them, and the name current. |
| FilesStoreProperties.NewFileKeepsStoredFiles | web/src/store/files.js:88-107 | When the cached list is fresh, `newFile` keeps every stored file with its value. |
| FilesStoreProperties.NewFileStaleListOverwrites | web/src/store/files.js:88-107 | When the cached list is empty but storage already holds `Untitled (1)`, `newFile` overwrites that file. This is the stale-cache race. |
| FilesStoreProperties.RenameKeepsOtherKeys | web/src/store/files.js:117-129 | On every failure outcome, rename writes or removes only the resolved new name and the old current file. Every other key keeps its presence and value. |
| FilesStoreProperties.RenameSameNameRemovesNothing | web/src/store/files.js:117-125 | Renaming to the current name removes no key. |
| FilesStoreProperties.RenameMovesRecord | web/src/store/files.js:117-125 | Rename to a different non-empty name, with every step succeeding. The content is stored under the new name, which is also in the list. A non-empty old name is gone from storage and from the list. The new name is current. |
| FilesStoreProperties.RenamePartialFailureKeepsBoth | web/src/store/files.js:117-125 | When the save succeeds but the removal of the old name fails, both names stay stored. |
| FilesStoreProperties.RenameAfterFailedSaveLosesFile | web/src/store/files.js:117-124 | As written, when the save under a new unused name fails, the old file is still deleted. The content is then under neither name. |
| FilesStoreProperties.RenameToFalsyNameDeletesCurrent | web/src/store/files.js:117-124 | As written, renaming to `""` or `undefined` saves under the current file and then deletes it. `currentFile` becomes the falsy name. |
| FilesStoreProperties.RenameFileChecked | web/src/store/files.js:117-129 | Corrected rename. A failed save leaves storage and `currentFile` unchanged. A successful save leaves the content under the resolved name and makes that name current. |
| FilesStoreProperties.RenameCheckedKeepsContent | web/src/store/files.js:117-129 | Corrected rename, every failure outcome: the old file survives, or the content is stored under the resolved name. Keys other than those two keep their values. |
| FilesStoreProperties.UploadScenario | web/src/store/files.js:130-147 | Importing `{"source":"table users {}","chart":{"zoom":1}}` as `Imported`: the editor shows that source, the chart is `{"zoom":1}`, storage and the list hold `Imported`, and it is current. |

## Left out

- Persistent storage internals and asynchrony. Each action is one atomic step, so concurrent interleavings are not modelled. `saving` is true only inside `SaveFile`'s single step.
- The order of `keys()`. The model enumerates keys in first-write order; the real store may use another order, and no property depends on it.
- Store keys that are not strings. The storage layer would coerce `undefined` to a string key; `LoadFile` and `LoadFileFromUpload` take the name as a string.
- `JSON.parse` of the uploaded text is an input (`None` when it throws). `JSON.stringify` throwing on cyclic or BigInt values is not modelled; `Normalize` is total.
- JSON numbers are integers: no floating point, `NaN` or `Infinity` (which stringify to `null`). Object member order is not modelled, since records are maps. Functions and symbols inside records are not modelled either.
- Property access reads only `source` and `chart`. On a primitive or an array it yields `undefined`, as no prototype carries those names.
- `new Date()` for `lastSave` is the input `now`. Console logging and the store's getters `getFiles`/`getCurrentFile` are not modelled; the getters only return a field.
- The editor and chart stores are opaque snapshots: `load` sets what `save` returns and `$reset` restores the initial snapshot. What `load({source})` does inside the editor is not part of this model.

## Findings

| source | as written | input that shows it | evidently intended | confidence | as-written member | corrected member |
|---|---|---|---|---|---|---|
| web/src/store/files.js:120-123 | `saveFile` swallows its own errors, so `renameFile` cannot tell that the save failed. It deletes the old name anyway and switches `currentFile`. | current file `A` stored, `B` not stored, `renameFile("B")` with `setItem` failing: afterwards neither `A` nor `B` is stored | delete the old name only after the save succeeded | medium, not executed | FilesStoreProperties.RenameAfterFailedSaveLosesFile | FilesStoreProperties.RenameFileChecked (property FilesStoreProperties.RenameCheckedKeepsContent) |
| web/src/store/files.js:120-123 | `renameFile` compares `oldName` with the raw argument, not with the name the save resolved to. | current file `A`, `renameFile("")`: the content is saved under `A` and then `A` is deleted; `currentFile` becomes `""` | compare with the resolved name and keep that name current | low, not executed (callers may never pass an empty name) | FilesStoreProperties.RenameToFalsyNameDeletesCurrent | FilesStoreProperties.RenameFileChecked (property FilesStoreProperties.RenameCheckedKeepsContent) |

`RenameFile` models the code as written. No other member depends on either
rename.

=== FILE: default_names.dfy ===
/** `generateDefaultFileName`: the first name of the form `Untitled (n)`
    that the cached file list does not contain. */
module DefaultNames {

  /** The decimal numeral of `n`, as a template literal prints it. */
  function Decimal(n: nat): (r: string)
    ensures 1 <= |r|
    ensures n < 10 <==> |r| == 1
  {
    if n < 10 then [DigitChar(n)] else Decimal(n / 10) + [DigitChar(n % 10)]
  }

  function DigitChar(d: nat): char
    requires d < 10
  {
    "0123456789"[d]
  }

  /** `Untitled (${n})` */
  function DefaultName(n: nat): string {
    "Untitled (" + Decimal(n) + ")"
  }

  /** Different numbers have different numerals. */
  lemma {:induction false} DecimalInjective(a: nat, b: nat)
    requires Decimal(a) == Decimal(b)
    ensures a == b
  {
    if a >= 10 && b >= 10 {
      var da, db := Decimal(a), Decimal(b);
      assert da[..|da| - 1] == Decimal(a / 10);
      assert db[..|db| - 1] == Decimal(b / 10);
      DecimalInjective(a / 10, b / 10);
      assert DigitChar(a % 10) == da[|da| - 1] == db[|db| - 1] == DigitChar(b % 10);
    }
  }

  /** Different numbers give different default names. */
  lemma DefaultNameInjective(a: nat, b: nat)
    requires DefaultName(a) == DefaultName(b)
    ensures a == b
  {
    var na, nb := DefaultName(a), DefaultName(b);
    assert na[10..|na| - 1] == Decimal(a);
    assert nb[10..|nb| - 1] == Decimal(b);
    DecimalInjective(a, b);
  }

  /** The default names numbered 1 to n. */
  ghost function NamesUpTo(n: nat): (r: set<string>)
    ensures forall k :: 1 <= k <= n ==> DefaultName(k) in r
  {
    set k | 1 <= k <= n :: DefaultName(k)
  }

  lemma {:induction false} NamesUpToSize(n: nat)
    ensures |NamesUpTo(n)| == n
  {
    if n > 0 {
      NamesUpToSize(n - 1);
      assert NamesUpTo(n) == NamesUpTo(n - 1) + {DefaultName(n)};
      if DefaultName(n) in NamesUpTo(n - 1) {
        var k :| 1 <= k <= n - 1 && DefaultName(k) == DefaultName(n);
        DefaultNameInjective(k, n);
      }
    }
  }

  lemma {:induction false} ElementsSize(s: seq<string>)
    ensures |set x | x in s| <= |s|
  {
    if s != [] {
      ElementsSize(s[1..]);
      assert (set x | x in s) == (set x | x in s[1..]) + {s[0]};
    }
  }

  lemma SubsetSize<T>(a: set<T>, b: set<T>)
    requires a <= b
    ensures |a| <= |b|
  {
    assert b == a + (b - a);
  }

  /** A list that holds the first n default names has at least n entries. */
  lemma Pigeonhole(files: seq<string>, n: nat)
    requires forall k :: 1 <= k <= n ==> DefaultName(k) in files
    ensures n <= |files|
  {
    NamesUpToSize(n);
    ElementsSize(files);
    SubsetSize(NamesUpTo(n), set x | x in files);
  }

  /** n is the least number from 1 up whose default name is not in `files`. */
  ghost predicate IsLeastAbsent(files: seq<string>, n: nat) {
    && 1 <= n
    && DefaultName(n) !in files
    && forall k :: 1 <= k < n ==> DefaultName(k) in files
  }

  lemma LeastAbsentUnique(files: seq<string>, m: nat, n: nat)
    requires IsLeastAbsent(files, m) && IsLeastAbsent(files, n)
    ensures m == n
  {
  }

  /** Reference definition: count up from i until a default name is free. */
  function LeastAbsentFrom(files: seq<string>, i: nat): (n: nat)
    requires 1 <= i
    requires forall k :: 1 <= k < i ==> DefaultName(k) in files
    ensures IsLeastAbsent(files, n)
    ensures n <= |files| + 1
    decreases |files| + 1 - i
  {
    if DefaultName(i) !in files then
      Pigeonhole(files, i - 1);
      i
    else
      Pigeonhole(files, i);
      LeastAbsentFrom(files, i + 1)
  }

  function LeastAbsent(files: seq<string>): (n: nat)
    ensures IsLeastAbsent(files, n)
    ensures n <= |files| + 1
  {
    LeastAbsentFrom(files, 1)
  }

  /** The candidate the loop tests next when its counter is `i`. The loop
      body builds the next name from the counter's value before its
      post-increment, so the counter runs one ahead of the candidate, and
      the first iteration rebuilds `Untitled (1)`. */
  function Candidate(i: nat): nat
    requires 1 <= i
  {
    if i == 1 then 1 else i - 1
  }

  /** The `while` loop of `generateDefaultFileName` in state (counter `i`,
      candidate `name`). The candidates it tests are `Untitled (1)`,
      `Untitled (1)`, `Untitled (2)`, `Untitled (3)`, ... */
  function GenerateLoop(files: seq<string>, i: nat, name: string): (r: string)
    requires 1 <= i
    requires name == DefaultName(Candidate(i))
    requires forall k :: 1 <= k < Candidate(i) ==> DefaultName(k) in files
    ensures r == DefaultName(LeastAbsent(files))
    decreases |files| + 2 - i
  {
    if name !in files then
      LeastAbsentUnique(files, Candidate(i), LeastAbsent(files));
      name
    else
      Pigeonhole(files, Candidate(i));
      GenerateLoop(files, i + 1, DefaultName(i))
  }

  /** `generateDefaultFileName()` over the cached list `files`. */
  function GenerateDefaultFileName(files: seq<string>): (r: string)
    ensures r !in files
    ensures r == DefaultName(LeastAbsent(files))
  {
    GenerateLoop(files, 1, DefaultName(1))
  }

  /** No files gives `Untitled (1)`; a list holding just `Untitled (1)` gives `Untitled (2)`. */
  lemma GenerateExamples()
    ensures GenerateDefaultFileName([]) == "Untitled (1)"
    ensures GenerateDefaultFileName(["Untitled (1)"]) == "Untitled (2)"
  {
    assert DefaultName(1) == "Untitled (1)";
    assert DefaultName(2) == "Untitled (2)";
    LeastAbsentUnique([], 1, LeastAbsent([]));
    LeastAbsentUnique(["Untitled (1)"], 2, LeastAbsent(["Untitled (1)"]));
  }
}

=== FILE: files_store.dfy ===
/** The files store of the diagram editor: the actions of `useFilesStore`
    as transitions on an immutable state. Each `await` is one sequential
    step; every storage call that can fail takes an explicit flag saying
    whether it fails, and the clock reading for `lastSave` is an input. */
module FilesStore {
  import opened Wrappers
  import opened Json
  import opened KeyValueStore
  import opened Snapshots
  import opened DefaultNames

  /** The store's own fields together with the persistent storage and the
      two stores it loads into and saves from. `currentFile` is `None` when
      it is `undefined` (after `newFile`) and starts as `Some("")`. */
  datatype State = State(
    store: Store,
    files: seq<string>,
    currentFile: Option<string>,
    saving: bool,
    lastSave: int,
    editor: Snapshot<map<string, Value>>,
    chart: Snapshot<Value>)

  /** The store's initial state over existing storage and module states. */
  function Init(store: Store, editor: Snapshot<map<string, Value>>, chart: Snapshot<Value>): (r: State)
    ensures !r.saving && r.lastSave == 0 && r.files == []
    ensures r.currentFile.Some? && !Named(r.currentFile)
    ensures r.store == store && r.editor == editor && r.chart == chart
  {
    State(store, [], Some(""), false, 0, editor, chart)
  }

  /** A file name argument that is truthy: defined and non-empty. */
  predicate Named(n: Option<string>) {
    n.Some? && n.value != ""
  }

  /** The cached list names every stored file exactly once. */
  ghost predicate Listed(s: State) {
    && Distinct(s.files)
    && forall k :: k in s.files <==> k in s.store.items
  }

  /** Outcomes of the storage calls `saveFile` makes. */
  datatype SaveFaults = SaveFaults(writeFails: bool, listFails: bool)

  const NoSaveFaults := SaveFaults(false, false)

  /** Outcomes of the storage calls `renameFile` makes, in order: the
      save, the removal of the old name, the listing inside `deleteFile`,
      and the final listing. */
  datatype RenameFaults = RenameFaults(save: SaveFaults, removeFails: bool, deleteListFails: bool, listFails: bool)

  const NoRenameFaults := RenameFaults(NoSaveFaults, false, false, false)

  /** `loadFileList()`: a failing `keys()` is caught and leaves `files` alone. */
  function LoadFileList(s: State, fails: bool): (r: State)
    ensures fails ==> r == s
    ensures !fails ==> Listed(r) && r.(files := s.files) == s
  {
    if fails then s else s.(files := Keys(s.store))
  }

  /** The name `saveFile(name)` writes under. */
  function ResolveName(s: State, name: Option<string>): (r: string)
    ensures r != ""
    ensures Named(name) ==> r == name.value
    ensures !Named(name) && Named(s.currentFile) ==> r == s.currentFile.value
    ensures !Named(name) && !Named(s.currentFile) ==> r !in s.files && r == DefaultName(LeastAbsent(s.files))
  {
    if Named(name) then name.value
    else if Named(s.currentFile) then s.currentFile.value
    else GenerateDefaultFileName(s.files)
  }

  /** The record `saveFile` builds: the editor's snapshot with a `chart`
      member holding the chart's snapshot, before serialisation. */
  function RecordToSave(s: State): (r: Value)
    ensures r.Obj? && "chart" in r.fields && r.fields["chart"] == s.chart.Save()
    ensures forall k :: k in r.fields <==> k in s.editor.Save() || k == "chart"
    ensures forall k :: k in s.editor.Save() && k != "chart" ==> r.fields[k] == s.editor.Save()[k]
  {
    Obj(s.editor.Save()["chart" := s.chart.Save()])
  }

  /** `saveFile(name)`. The write stores the record after the round trip
      through JSON text. A failing write skips the rest of the body; the
      listing failing inside `loadFileList` is caught there and the save
      goes on. `saving` is cleared on every path. */
  function SaveFile(s: State, name: Option<string>, f: SaveFaults, now: int): (r: State)
    ensures !r.saving
    ensures r.editor == s.editor && r.chart == s.chart
    ensures f.writeFails ==> r == s.(saving := false)
    ensures !f.writeFails ==>
              && r.store.items == s.store.items[ResolveName(s, name) := Normalize(RecordToSave(s))]
              && r.currentFile == Some(ResolveName(s, name))
              && r.lastSave == now
    ensures !f.writeFails && !f.listFails ==> Listed(r)
    ensures f.listFails ==> r.files == s.files
  {
    var fileName := ResolveName(s, name);
    var busy := s.(saving := true);
    var settled :=
      if f.writeFails then busy
      else
        var written := busy.(store := SetItem(busy.store, fileName, Normalize(RecordToSave(busy))));
        var listed := LoadFileList(written, f.listFails).(lastSave := now);
        if listed.currentFile != Some(fileName) then listed.(currentFile := Some(fileName)) else listed;
    settled.(saving := false)
  }

  /** The record `newFile` writes: both modules at their reset state. */
  function EmptyRecord(s: State): Value {
    Normalize(Obj(s.editor.initial["chart" := s.chart.initial]))
  }

  /** `newFile()`: forget the current file, reset both modules and save
      under a generated default name. The name is chosen from the cached
      list, which may be stale. */
  function NewFile(s: State, f: SaveFaults, now: int): (r: State)
    ensures !r.saving
    ensures r.editor.Save() == s.editor.initial && r.chart.Save() == s.chart.initial
    ensures f.writeFails ==> r.currentFile == None && r.store == s.store && r.lastSave == s.lastSave
    ensures f.writeFails || f.listFails ==> r.files == s.files
    ensures r.editor.initial == s.editor.initial && r.chart.initial == s.chart.initial
    ensures !f.writeFails ==> r.lastSave == now
    ensures !f.writeFails && !f.listFails ==> Listed(r)
    ensures !f.writeFails ==>
              var name := DefaultName(LeastAbsent(s.files));
              && name !in s.files
              && r.currentFile == Some(name)
              && r.store.items == s.store.items[name := EmptyRecord(s)]
  {
    var cleared := s.(currentFile := None, editor := s.editor.Reset(), chart := s.chart.Reset());
    SaveFile(cleared, None, f, now)
  }

  /** The record under `name` is one `loadFile` opens: it is truthy and
      its `source` member is truthy. */
  predicate Opens(st: Store, name: string) {
    var file := GetItem(st, name);
    Truthy(file) && Truthy(Member(file, "source"))
  }

  /** `loadFile(name)`: refresh the list, then fetch the record; load it
      into the chart and editor and make it current only when `Opens`. */
  function LoadFile(s: State, name: string, listFails: bool, getFails: bool): (r: State)
    ensures r.store == s.store && r.saving == s.saving && r.lastSave == s.lastSave
    ensures r.editor.initial == s.editor.initial && r.chart.initial == s.chart.initial
    ensures !listFails ==> Listed(r)
    ensures listFails ==> r.files == s.files
    ensures getFails || !Opens(s.store, name) ==>
              r.editor == s.editor && r.chart == s.chart && r.currentFile == s.currentFile
    ensures !getFails && Opens(s.store, name) ==>
              var fields := s.store.items[name].fields;
              && "source" in fields
              && r.currentFile == Some(name)
              && r.editor.Save() == map["source" := fields["source"]]
              && ("chart" in fields && Truthy(fields["chart"]) ==> r.chart.Save() == fields["chart"])
              && (!("chart" in fields && Truthy(fields["chart"])) ==> r.chart.Save() == EmptyObject)
  {
    var listed := LoadFileList(s, listFails);
    if getFails then listed
    else
      var file := GetItem(listed.store, name);
      if Truthy(file) && Truthy(Member(file, "source")) then
        listed.(chart := listed.chart.Load(Or(Member(file, "chart"), EmptyObject)),
                editor := listed.editor.Load(map["source" := Member(file, "source")]),
                currentFile := Some(name))
      else listed
  }

  /** `deleteFile(name)`: nothing at all for a falsy name; a failing
      removal is caught and changes nothing. */
  function DeleteFile(s: State, name: Option<string>, removeFails: bool, listFails: bool): (r: State)
    ensures r.(store := s.store, files := s.files) == s
    ensures !Named(name) || removeFails ==> r == s
    ensures Named(name) && !removeFails ==> r.store.items == s.store.items - {name.value}
    ensures Named(name) && !removeFails && !listFails ==> Listed(r)
    ensures listFails ==> r.files == s.files
  {
    if !Named(name) then s
    else if removeFails then s
    else LoadFileList(s.(store := RemoveItem(s.store, name.value)), listFails)
  }

  /** `renameFile(newName)`: save under the new name, then, when the new
      name differs from the old current file, delete the old one and set
      the current file to the new name; finally refresh the list. Every
      step catches its own failures, so a later step runs even when an
      earlier one failed. */
  function RenameFile(s: State, newName: Option<string>, f: RenameFaults, now: int): (r: State)
    ensures !r.saving && r.editor == s.editor && r.chart == s.chart
    ensures !f.listFails ==> Listed(r)
    ensures newName != s.currentFile ==> r.currentFile == newName
    ensures newName == s.currentFile ==> r.store == SaveFile(s, newName, f.save, now).store
  {
    var oldName := s.currentFile;
    var saved := SaveFile(s, newName, f.save, now);
    var moved :=
      if oldName != newName then
        DeleteFile(saved, oldName, f.removeFails, f.deleteListFails).(currentFile := newName)
      else saved;
    LoadFileList(moved, f.listFails)
  }

  /** `loadFileFromUpload(content, name)` with `parsed` the outcome of
      `JSON.parse(content)` (None when it throws). Reading `source` from a
      parsed `null` throws before anything changes. The editor and chart
      are loaded before the write, so a failing write leaves them loaded
      but the storage and current file as they were. The record is stored
      as parsed, without normalisation. */
  function LoadFileFromUpload(s: State, parsed: Option<Value>, name: string, writeFails: bool, listFails: bool): (r: State)
    ensures r.saving == s.saving && r.lastSave == s.lastSave
    ensures r.editor.initial == s.editor.initial && r.chart.initial == s.chart.initial
    ensures parsed.None? || !Accessible(parsed.value) ==> r == s
    ensures parsed.Some? && Accessible(parsed.value) ==>
              && r.editor.Save() == map["source" := Member(parsed.value, "source")]
              && r.chart.Save() == Or(Member(parsed.value, "chart"), EmptyObject)
    ensures writeFails ==> r.store == s.store && r.currentFile == s.currentFile
    ensures parsed.Some? && Accessible(parsed.value) && !writeFails ==>
              && r.store.items == s.store.items[name := parsed.value]
              && r.currentFile == Some(name)
    ensures parsed.Some? && Accessible(parsed.value) && !writeFails && !listFails ==> Listed(r)
    ensures writeFails || listFails ==> r.files == s.files
  {
    if parsed.None? || !Accessible(parsed.value) then s
    else
      var data := parsed.value;
      var loaded := s.(editor := s.editor.Load(map["source" := Member(data, "source")]),
                       chart := s.chart.Load(Or(Member(data, "chart"), EmptyObject)));
      if writeFails then loaded
      else LoadFileList(loaded.(store := SetItem(loaded.store, name, data)), listFails).(currentFile := Some(name))
  }
}

=== FILE: files_store_properties.dfy ===
/** Properties that relate several actions of the files store, or one
    action across all of its failure outcomes. */
module FilesStoreProperties {
  import opened Wrappers
  import opened Json
  import opened KeyValueStore
  import opened Snapshots
  import opened DefaultNames
  import opened FilesStore

  /** Listing twice in a row yields what listing once does. */
  lemma LoadFileListIdempotent(s: State)
    ensures LoadFileList(LoadFileList(s, false), false) == LoadFileList(s, false)
  {
  }

  /** Saving and then loading the saved name restores the editor's source
      text and the chart as the text round trip leaves it; a falsy chart
      comes back as the empty object. */
  lemma SaveThenLoadRoundTrip(s: State, name: Option<string>, now: int)
    requires "source" in s.editor.Save() && s.editor.Save()["source"].Str?
    requires s.editor.Save()["source"].s != ""
    ensures var saved := SaveFile(s, name, NoSaveFaults, now);
            var loaded := LoadFile(saved, ResolveName(s, name), false, false);
            && loaded.currentFile == Some(ResolveName(s, name))
            && loaded.editor.Save() == map["source" := s.editor.Save()["source"]]
            && loaded.chart.Save() == Or(Normalize(s.chart.Save()), EmptyObject)
  {
    var target := ResolveName(s, name);
    var saved := SaveFile(s, name, NoSaveFaults, now);
    var record := RecordToSave(s);
    var stored := Normalize(record);
    assert saved.store.items[target] == stored;
    var chart := s.chart.Save();
    NormalizeFixesJson(s.editor.Save()["source"]);
    assert stored.fields["source"] == record.fields["source"];
    assert Opens(saved.store, target);
    if chart.Undefined? {
      assert "chart" !in stored.fields;
    } else {
      assert stored.fields["chart"] == Normalize(chart);
    }
  }

  /** For a chart already free of `undefined`, the round trip restores it
      exactly. */
  lemma SaveThenLoadRestoresJsonChart(s: State, name: Option<string>, now: int)
    requires "source" in s.editor.Save() && s.editor.Save()["source"].Str?
    requires s.editor.Save()["source"].s != ""
    requires IsJson(s.chart.Save())
    ensures var saved := SaveFile(s, name, NoSaveFaults, now);
            var loaded := LoadFile(saved, ResolveName(s, name), false, false);
            loaded.chart.Save() == Or(s.chart.Save(), EmptyObject)
  {
    SaveThenLoadRoundTrip(s, name, now);
    NormalizeFixesJson(s.chart.Save());
  }

  /** From the initial state over any storage, a save with no name writes
      `Untitled (1)`: the initial current file `""` is falsy and the
      initial cached list is empty, so an existing `Untitled (1)` is
      overwritten, the startup case of the stale-list race. */
  lemma FirstSaveFromInit(store: Store, editor: Snapshot<map<string, Value>>, chart: Snapshot<Value>, now: int)
    ensures var r := SaveFile(Init(store, editor, chart), None, NoSaveFaults, now);
            && r.currentFile == Some("Untitled (1)")
            && "Untitled (1)" in r.store.items
            && r.store.items["Untitled (1)"] == Normalize(RecordToSave(Init(store, editor, chart)))
  {
    GenerateExamples();
  }

  /** Importing a record whose `source` is truthy and then loading it by
      name leaves the editor, the chart and the current file as the
      import set them. */
  lemma UploadThenLoadRoundTrip(s: State, data: Value, name: string)
    requires Accessible(data) && Truthy(Member(data, "source"))
    ensures var uploaded := LoadFileFromUpload(s, Some(data), name, false, false);
            var loaded := LoadFile(uploaded, name, false, false);
            && loaded.editor == uploaded.editor
            && loaded.chart == uploaded.chart
            && loaded.currentFile == Some(name)
  {
  }

  /** With a fresh list, `newFile` never overwrites a stored file. */
  lemma NewFileKeepsStoredFiles(s: State, f: SaveFaults, now: int)
    requires Listed(s)
    ensures var r := NewFile(s, f, now);
            forall k :: k in s.store.items ==> k in r.store.items && r.store.items[k] == s.store.items[k]
  {
  }

  /** With a stale list, `newFile` can overwrite a stored file: a name
      written since the last listing is generated again. */
  lemma NewFileStaleListOverwrites(s: State, now: int)
    requires s.files == []
    requires "Untitled (1)" in s.store.items && s.store.items["Untitled (1)"] != EmptyRecord(s)
    ensures var r := NewFile(s, NoSaveFaults, now);
            r.store.items["Untitled (1)"] == EmptyRecord(s) != s.store.items["Untitled (1)"]
  {
    GenerateExamples();
  }

  /** The keys `renameFile(newName)` may write or remove: the name the
      save resolves to and the old current file. */
  function Touched(s: State, newName: Option<string>): set<string> {
    {ResolveName(s, newName)} + (if s.currentFile.Some? then {s.currentFile.value} else {})
  }

  /** `a` and `b` agree on every key outside `t`. */
  ghost predicate SameOutside(a: map<string, Value>, b: map<string, Value>, t: set<string>) {
    forall k :: k !in t ==> (k in a <==> k in b) && (k in a ==> a[k] == b[k])
  }

  /** `renameFile` writes or removes only the resolved new name and the old
      current file; every other key keeps its value. */
  lemma RenameKeepsOtherKeys(s: State, newName: Option<string>, f: RenameFaults, now: int)
    ensures var r := RenameFile(s, newName, f, now);
            SameOutside(r.store.items, s.store.items, Touched(s, newName))
  {
    var t := Touched(s, newName);
    var saved := SaveFile(s, newName, f.save, now);
    assert SameOutside(saved.store.items, s.store.items, t);
    if s.currentFile != newName {
      var deleted := DeleteFile(saved, s.currentFile, f.removeFails, f.deleteListFails);
      assert SameOutside(deleted.store.items, saved.store.items, t);
    }
  }

  /** Renaming to the current name removes no record. */
  lemma RenameSameNameRemovesNothing(s: State, f: RenameFaults, now: int)
    ensures s.store.items.Keys <= RenameFile(s, s.currentFile, f, now).store.items.Keys
  {
  }

  /** Renaming to a different non-empty name with every step succeeding
      moves the current content to the new name, removes the old name from
      storage and from the list, and makes the new name current. */
  lemma RenameMovesRecord(s: State, newName: Option<string>, now: int)
    requires Named(newName) && newName != s.currentFile
    ensures var r := RenameFile(s, newName, NoRenameFaults, now);
            && newName.value in r.store.items
            && r.store.items[newName.value] == Normalize(RecordToSave(s))
            && newName.value in r.files
            && (Named(s.currentFile) ==> s.currentFile.value !in r.store.items && s.currentFile.value !in r.files)
            && r.currentFile == newName
  {
    var saved := SaveFile(s, newName, NoSaveFaults, now);
    assert saved.store.items[newName.value] == Normalize(RecordToSave(s));
    var deleted := DeleteFile(saved, s.currentFile, false, false);
    if Named(s.currentFile) {
      assert s.currentFile.value != newName.value;
    }
    assert newName.value in deleted.store.items;
  }

  /** Rename is not atomic: when the save succeeds but removing the old
      name fails, both names stay stored. */
  lemma RenamePartialFailureKeepsBoth(s: State, newName: Option<string>, now: int)
    requires Named(newName) && Named(s.currentFile) && newName != s.currentFile
    requires s.currentFile.value in s.store.items
    ensures var f := RenameFaults(NoSaveFaults, true, false, false);
            var r := RenameFile(s, newName, f, now);
            && s.currentFile.value in r.store.items
            && newName.value in r.store.items
            && r.currentFile == newName
  {
  }

  /** As written, `renameFile` deletes the old file even when the save
      under the new name failed, since `saveFile` swallows its error: the
      content is then stored under neither name. */
  lemma RenameAfterFailedSaveLosesFile(s: State, newName: Option<string>, now: int)
    requires Named(s.currentFile) && Named(newName) && newName != s.currentFile
    requires newName.value !in s.store.items
    ensures var f := RenameFaults(SaveFaults(true, false), false, false, false);
            var r := RenameFile(s, newName, f, now);
            && s.currentFile.value !in r.store.items
            && newName.value !in r.store.items
            && r.currentFile == newName
  {
  }

  /** As written, `renameFile` with an empty or undefined name saves under
      the current file and then deletes that same file. */
  lemma RenameToFalsyNameDeletesCurrent(s: State, newName: Option<string>, now: int)
    requires Named(s.currentFile) && !Named(newName)
    ensures var r := RenameFile(s, newName, NoRenameFaults, now);
            && s.currentFile.value !in r.store.items
            && r.currentFile == newName
  {
  }

  /** `renameFile` as evidently intended: remove the old name only when the
      save succeeded and wrote under a different name, and make the name
      actually written the current file. */
  function RenameFileChecked(s: State, newName: Option<string>, f: RenameFaults, now: int): (r: State)
    ensures !r.saving && r.editor == s.editor && r.chart == s.chart
    ensures !f.listFails ==> Listed(r)
    ensures f.save.writeFails ==> r.store == s.store && r.currentFile == s.currentFile
    ensures !f.save.writeFails ==>
              var target := ResolveName(s, newName);
              && target in r.store.items
              && r.store.items[target] == Normalize(RecordToSave(s))
              && r.currentFile == Some(target)
  {
    var oldName := s.currentFile;
    var target := ResolveName(s, newName);
    var saved := SaveFile(s, newName, f.save, now);
    var moved :=
      if !f.save.writeFails && oldName != Some(target) then
        DeleteFile(saved, oldName, f.removeFails, f.deleteListFails).(currentFile := Some(target))
      else saved;
    LoadFileList(moved, f.listFails)
  }

  /** The corrected rename never loses the document: either the old file
      is untouched or the content is stored under the new name, and every
      key other than the two names keeps its value. */
  lemma RenameCheckedKeepsContent(s: State, newName: Option<string>, f: RenameFaults, now: int)
    requires Named(s.currentFile) && s.currentFile.value in s.store.items
    ensures var r := RenameFileChecked(s, newName, f, now);
            && (s.currentFile.value in r.store.items
                || ResolveName(s, newName) in r.store.items)
            && SameOutside(r.store.items, s.store.items, Touched(s, newName))
  {
    var t := Touched(s, newName);
    var saved := SaveFile(s, newName, f.save, now);
    assert SameOutside(saved.store.items, s.store.items, t);
    if !f.save.writeFails && s.currentFile != Some(ResolveName(s, newName)) {
      var deleted := DeleteFile(saved, s.currentFile, f.removeFails, f.deleteListFails);
      assert SameOutside(deleted.store.items, saved.store.items, t);
    }
  }

  /** Importing `{"source":"table users {}","chart":{"zoom":1}}` as
      `Imported`. */
  lemma UploadScenario(s: State)
    ensures var data := Obj(map["source" := Str("table users {}"), "chart" := Obj(map["zoom" := Num(1)])]);
            var r := LoadFileFromUpload(s, Some(data), "Imported", false, false);
            && r.editor.Save()["source"] == Str("table users {}")
            && r.chart.Save() == Obj(map["zoom" := Num(1)])
            && "Imported" in r.store.items && "Imported" in r.files
            && r.currentFile == Some("Imported")
  {
  }
}

=== FILE: json.dfy ===
/** JavaScript values as the files store sees them: the results of
    `JSON.parse`, the snapshots of the editor and chart stores, and the
    records kept in storage. `Undefined` is JavaScript's `undefined`, which
    can appear in a live object but never in parsed JSON. Numbers are
    integers only. */
module Json {

  datatype Value =
    | Undefined
    | Null
    | Bool(b: bool)
    | Num(n: int)
    | Str(s: string)
    | Arr(items: seq<Value>)
    | Obj(fields: map<string, Value>)

  /** The empty object literal `{}`. */
  const EmptyObject: Value := Obj(map[])

  /** JavaScript truthiness: `undefined`, `null`, `false`, `0` and `""` are
      falsy; every array and every object is truthy. */
  predicate Truthy(v: Value) {
    match v
    case Undefined => false
    case Null => false
    case Bool(b) => b
    case Num(n) => n != 0
    case Str(s) => s != ""
    case Arr(_) => true
    case Obj(_) => true
  }

  /** `a || b` */
  function Or(a: Value, b: Value): (r: Value)
    ensures Truthy(a) ==> r == a
    ensures !Truthy(a) ==> r == b
  {
    if Truthy(a) then a else b
  }

  /** Property access `v.key` does not throw. */
  predicate Accessible(v: Value) {
    !v.Undefined? && !v.Null?
  }

  /** Property access `v.key` on a value where it does not throw. Only the
      keys `source` and `chart` are ever read, and no primitive, array or
      prototype carries them, so anything but an object yields `undefined`. */
  function Member(v: Value, key: string): (r: Value)
    requires Accessible(v)
    ensures v.Obj? && key in v.fields ==> r == v.fields[key]
    ensures !(v.Obj? && key in v.fields) ==> r == Undefined
  {
    if v.Obj? && key in v.fields then v.fields[key] else Undefined
  }

  /** A value that `JSON.parse` could have produced: no `undefined` anywhere. */
  predicate IsJson(v: Value) {
    match v
    case Undefined => false
    case Arr(items) => forall i :: 0 <= i < |items| ==> IsJson(items[i])
    case Obj(fields) => forall k :: k in fields ==> IsJson(fields[k])
    case _ => true
  }

  /** `JSON.parse(JSON.stringify(v))` for a value that is an object or sits
      inside one: object members whose value is `undefined` are dropped and
      `undefined` array items become `null`. */
  function Normalize(v: Value): (r: Value)
    ensures IsJson(r)
    ensures v.Obj? <==> r.Obj?
    ensures v.Obj? ==> forall k :: k in r.fields <==> k in v.fields && !v.fields[k].Undefined?
    ensures v.Obj? ==> forall k :: k in r.fields ==> r.fields[k] == Normalize(v.fields[k])
    ensures v.Arr? ==> r.Arr? && |r.items| == |v.items|
    ensures v.Arr? ==> forall i :: 0 <= i < |r.items| ==> r.items[i] == Normalize(v.items[i])
    ensures v.Undefined? ==> r == Null
    ensures !v.Undefined? && !v.Arr? && !v.Obj? ==> r == v
    ensures Truthy(v) ==> Truthy(r)
  {
    match v
    case Undefined => Null
    case Arr(items) => Arr(seq(|items|, i requires 0 <= i < |items| => Normalize(items[i])))
    case Obj(fields) => Obj(map k | k in fields && !fields[k].Undefined? :: Normalize(fields[k]))
    case _ => v
  }

  /** The round trip through text leaves parsed JSON as it was. */
  lemma {:induction false} NormalizeFixesJson(v: Value)
    requires IsJson(v)
    ensures Normalize(v) == v
  {
    match v
    case Arr(items) =>
      forall i | 0 <= i < |items|
        ensures Normalize(items[i]) == items[i]
      {
        NormalizeFixesJson(items[i]);
      }
      assert Normalize(v).items == items;
    case Obj(fields) =>
      forall k | k in fields
        ensures Normalize(fields[k]) == fields[k]
      {
        NormalizeFixesJson(fields[k]);
      }
      assert Normalize(v).fields == fields;
    case _ =>
  }

  /** A member of an object that is already free of `undefined` survives
      the round trip verbatim; an `undefined` member is dropped. */
  lemma NormalizeKeepsJsonMembers(fields: map<string, Value>, k: string)
    requires k in fields
    ensures IsJson(fields[k]) ==> k in Normalize(Obj(fields)).fields && Normalize(Obj(fields)).fields[k] == fields[k]
    ensures fields[k].Undefined? ==> k !in Normalize(Obj(fields)).fields
  {
    if IsJson(fields[k]) {
      NormalizeFixesJson(fields[k]);
    }
  }

  /** Normalising twice is normalising once. */
  lemma NormalizeIdempotent(v: Value)
    ensures Normalize(Normalize(v)) == Normalize(v)
  {
    NormalizeFixesJson(Normalize(v));
  }
}

=== FILE: key_value_store.dfy ===
/** The persistent key-value store the files store writes to: a namespace of
    string keys, each holding one value. It enumerates its keys in the order
    they were first written; the files store relies on no particular order. */
module KeyValueStore {
  import opened Json

  predicate Distinct(s: seq<string>) {
    forall i, j :: 0 <= i < j < |s| ==> s[i] != s[j]
  }

  datatype Storage = Storage(order: seq<string>, items: map<string, Value>)

  /** The key list names every stored key exactly once. */
  predicate Valid(st: Storage) {
    && Distinct(st.order)
    && (forall k :: k in st.order ==> k in st.items)
    && (forall k :: k in st.items ==> k in st.order)
  }

  type Store = st: Storage | Valid(st) witness Storage([], map[])

  /** `keys()` */
  function Keys(st: Store): (ks: seq<string>)
    ensures Distinct(ks)
    ensures forall k :: k in ks <==> k in st.items
  {
    st.order
  }

  /** `getItem(key)`: a missing key yields `null`. */
  function GetItem(st: Store, key: string): (v: Value)
    ensures key in st.items ==> v == st.items[key]
    ensures key !in st.items ==> v == Null
  {
    if key in st.items then st.items[key] else Null
  }

  /** `setItem(key, value)`: an upsert that keeps the position of an existing key. */
  function SetItem(st: Store, key: string, value: Value): (r: Store)
    ensures r.items == st.items[key := value]
    ensures key in st.items ==> r.order == st.order
  {
    if key in st.items then Storage(st.order, st.items[key := value])
    else
      assert Distinct(st.order + [key]);
      Storage(st.order + [key], st.items[key := value])
  }

  /** `s` with every occurrence of `key` taken out. */
  function Without(s: seq<string>, key: string): (r: seq<string>)
    ensures forall k :: k in r <==> k in s && k != key
    ensures Distinct(s) ==> Distinct(r)
  {
    if s == [] then []
    else if s[0] == key then Without(s[1..], key)
    else
      var rest := Without(s[1..], key);
      assert Distinct(s) ==> s[0] !in rest;
      [s[0]] + rest
  }

  /** `removeItem(key)`: idempotent, removing a missing key changes nothing. */
  function RemoveItem(st: Store, key: string): (r: Store)
    ensures r.items == st.items - {key}
  {
    Storage(Without(st.order, key), st.items - {key})
  }
}

=== FILE: snapshots.dfy ===
/** The editor and chart stores, seen only through the surface the files
    store uses: `load(value)`, the `save` getter and `$reset()`. Their
    internals are not part of this model: loading a value makes it the one
    `save` returns, and resetting returns to the state the store started in. */
module Snapshots {

  datatype Snapshot<T> = Snapshot(current: T, initial: T) {

    function Load(v: T): (r: Snapshot<T>)
      ensures r.Save() == v && r.initial == initial
    {
      this.(current := v)
    }

    function Save(): T {
      current
    }

    function Reset(): (r: Snapshot<T>)
      ensures r.Save() == initial && r.initial == initial
    {
      this.(current := initial)
    }
  }
}

=== FILE: wrappers.dfy ===
/** The optional-value datatype the rest of the model uses for values that
    JavaScript may leave `undefined`. */
module Wrappers {

  datatype Option<+T> = None | Some(value: T)
}
